=== FILE: README.md ===
# Data sources panel: remote dataset loading and file drops

This project models the two handlers of the data-sources panel of the Hugging Face bridge app.

- **Remote load** (`handleHuggingFaceLoad`). It runs when the "Load" button is pressed. It does the following, in order:
  1. Fetches the dataset's file listing from the Hugging Face API.
  2. Picks the first sibling whose lower-cased name ends with `.csv`, `.json`, `.jsonl`, `.parquet` or `.arrow`.
  3. Downloads that sibling.
  4. Types the download with a MIME type chosen from the file's extension.
  5. Hands the file to the database connector under a table name derived from the file name.
  6. Shows a success toast and refreshes the table schemas.

  Any rejection along the way that carries a `message` ends in a single destructive toast. The `loading` flag brackets the whole run.
- **File drop** (`onDrop`). It loads every dropped file in order and shows one toast per file, saying whether that file's load succeeded. It then refreshes the schemas once.

The handlers' side effects are recorded as a trace of `Events.Event` values:
- setting `loading`;
- the two fetches, by URL;
- the connector's load, with its file and table name;
- toasts, as structured `Notice`s from which `Title` and `Description` rebuild the exact texts;
- the schema refresh.

Every awaited collaborator is replaced by the outcome it settles with:
- `RemoteLoad.RemoteWorld` for the remote handler;
- one `Outcome` per file, plus one for the refresh, for the drop handler.

`RemoteLoad.StageOf` runs the remote steps against those outcomes and finds where the run ends. `RemoteLoad.Run` gives the events of a run that ends there.

Modules:
- `Outcomes`: `Option`, `Outcome` and `Result`.
- `Ascii`: ASCII lower-casing.
- `Strings`: prefixes and suffixes, `split`/`join` on one character, the last segment of a split.
- `Formats`: the suffix list, extension extraction, the MIME chain and its table, and the drop zone's accepted formats.
- `Selection`: `Array.prototype.find` over the listing.
- `Events`: the trace alphabet, the toast texts, and filtering a trace.
- `RemoteLoad`: the remote handler and the "Load" button's enabling.
- `DropBatch`: the drop handler, as a loop with invariants and as a recursive reference definition.

Facts about the code that the model makes explicit:
- **`.tsv` files.** The drop zone accepts `.tsv` (`DataSourcesPanel.tsx:85`), but the remote suffix list (`:25`) does not contain it, so a `.tsv` sibling is never selected (`Formats.TsvIsNotRemoteCandidate`, `Formats.RemoteFormatsAreDroppable`).
- **The default MIME type.** The `application/octet-stream` fallback of the MIME chain (`:40`) is unreachable for a selected sibling: a selected sibling always has one of the five known extensions (`Formats.CandidateExtensionIsKnown`).
- **HTTP status.** Neither fetch (`:21`, `:42`) checks `res.ok`:
  - A failed listing request surfaces only if the JSON decoding, or the read of `siblings`, throws. The model folds all of these into the listing's `Failure`.
  - An error page returned for the file download would be handed to the connector as if it were the file. The model's `download` outcome is whatever the download settles with.
- **A rejected schema refresh after a drop.** It is not caught by `onDrop` (`:109`) and escapes the handler. `DropBatch.OnDrop` returns it as `escaped`.

## Model

| member | source | states |
|---|---|---|
| Selection.FindFirst | src/components/DataSourcesPanel.tsx:24-28 | `find` yields the first position whose element satisfies the predicate, with no earlier match; `None` means no element matches |
| Selection.SelectSibling | src/components/DataSourcesPanel.tsx:24-28 | the selected sibling is a candidate and every earlier sibling is not; there is no selection exactly when no sibling is a candidate |
| Selection.SelectionDependsOnlyOnCandidacy | src/components/DataSourcesPanel.tsx:24-28 | two listings that agree, entry by entry, on which names are candidates select the same position |
| Selection.SelectionIgnoresCase | src/components/DataSourcesPanel.tsx:26 | lower-casing every name in the listing does not change which sibling is selected |
| Selection.SelectionStableUnderAppend | src/components/DataSourcesPanel.tsx:24-28 | appending entries after a listing that already has a candidate keeps the same selection |
| Ascii.LowerChar | src/components/DataSourcesPanel.tsx:26 | lower-casing a character maps each upper-case letter to the lower-case letter at the same alphabet position, changes nothing else, leaves no upper-case letter, and never creates or removes a dot |
| Ascii.Lower | src/components/DataSourcesPanel.tsx:26 | `toLowerCase` keeps the length and lower-cases each character in place |
| Ascii.LowerIdempotent | src/components/DataSourcesPanel.tsx:26 | lower-casing twice is the same as lower-casing once |
| Strings.Split | src/components/DataSourcesPanel.tsx:33 | `split('.')` is never empty, no part contains the separator, and joining the parts with the separator gives back the input |
| Strings.SplitJoin | src/components/DataSourcesPanel.tsx:33 | splitting the join of separator-free parts gives back those parts |
| Strings.LastSegment | src/components/DataSourcesPanel.tsx:33 | `pop()` of the split is a separator-free suffix of the name, and when it is shorter than the name the separator sits right before it |
| Formats.ExtensionOf | src/components/DataSourcesPanel.tsx:33 | the extension is the lower-cased text after the last dot: a dot-free suffix of the lower-cased name, preceded by a dot whenever it is shorter than the name (the whole lower-cased name when there is no dot) |
| Formats.MimeType | src/components/DataSourcesPanel.tsx:34-40 | the conditional chain agrees with the extension-to-MIME table on its five keys and gives `application/octet-stream` for every other extension |
| Formats.CandidateExtensionIsKnown | src/components/DataSourcesPanel.tsx:24-40 | a file that passes the suffix test has one of the five known extensions, so its MIME type comes from the table and never from the fallback |
| Formats.CandidateIgnoresCase | src/components/DataSourcesPanel.tsx:26 | a name is a candidate exactly when its lower-cased form is |
| Formats.TsvIsNotRemoteCandidate | src/components/DataSourcesPanel.tsx:24-28 | a name ending in `.tsv`, in any case, is never selected for remote loading |
| Formats.RemoteFormatsAreDroppable | src/components/DataSourcesPanel.tsx:83-90 | every remote suffix is among the drop zone's accepted formats, and the drop zone also accepts `.tsv`, which the remote list lacks |
| Events.Title | src/components/DataSourcesPanel.tsx:50-104 | a toast's title is "Error" exactly when its variant is destructive (titles at :50, :57, :98, :104) |
| Events.Description | src/components/DataSourcesPanel.tsx:51-105 | a remote failure's text is "Failed to load Hugging Face dataset: " followed by exactly the rejection's message (:58); a drop failure's text ends with its error (:105); both success texts end with the table name (:51, :99) |
| RemoteLoad.ListingUrlRoundTrip | src/components/DataSourcesPanel.tsx:20 | the listing URL and its parser are inverse: the id is recovered from its URL, and an id recovered from a URL rebuilds that URL |
| RemoteLoad.FileUrlRoundTrip | src/components/DataSourcesPanel.tsx:32 | for a fixed dataset, the file URL determines the file name and the file name determines the URL |
| RemoteLoad.DownloadedFileTyped | src/components/DataSourcesPanel.tsx:43 | a downloaded candidate keeps the sibling's name and gets the table MIME type of its extension, never the fallback |
| RemoteLoad.StageOf | src/components/DataSourcesPanel.tsx:19-59 | the run fails at the listing exactly when the listing rejects; each failure stage carries the message of the collaborator that rejected, and every earlier step resolved; a run with no candidate ends without a selection; every later stage names the selected sibling |
| RemoteLoad.StageAgrees | src/components/DataSourcesPanel.tsx:19-59 | the run passes the selection exactly when the listing has a candidate; it passes the download exactly when the download also resolves; it reaches the success toast exactly when the load also resolves; it fails at the refresh exactly when only the refresh rejects |
| RemoteLoad.Run | src/components/DataSourcesPanel.tsx:17-63 | on every path `loading` is set first and cleared last, the listing is the first request, and nothing in between touches `loading` |
| RemoteLoad.HandleLoad | src/components/DataSourcesPanel.tsx:17-63 | the same bracketing for a click against any collaborator outcomes |
| RemoteLoad.LoadDisabledDuringRun | src/components/DataSourcesPanel.tsx:15-75 | after a click sets `loading`, the "Load" button stays disabled at every point of the run until `loading` is cleared; once the run is over, `loading` is false and the button is enabled exactly when the id is non-empty |
| RemoteLoad.RunDownloads | src/components/DataSourcesPanel.tsx:32-42 | a run downloads exactly when it passes the selection, and only the selected file's URL |
| RemoteLoad.RunLoads | src/components/DataSourcesPanel.tsx:43-46 | a run calls the connector exactly when it passes the download, and only with the downloaded file under its converted name |
| RemoteLoad.RunToasts | src/components/DataSourcesPanel.tsx:48-59 | the toasts of a run ending at each stage: one error toast with that stage's message, or the success toast, followed by an error toast when the refresh rejects |
| RemoteLoad.RunRefresh | src/components/DataSourcesPanel.tsx:53 | a run refreshes exactly when the load resolved, right after the success toast |
| RemoteLoad.NoMatchStopsAfterListing | src/components/DataSourcesPanel.tsx:30 | with no candidate the whole trace is: set `loading`, the listing request, the "No CSV, JSON, JSONL, Parquet, or Arrow file" error toast, clear `loading` |
| RemoteLoad.DownloadOnlyOfSelected | src/components/DataSourcesPanel.tsx:24-42 | a file is downloaded exactly when the listing has a candidate, and the only file URL requested is the selected sibling's |
| RemoteLoad.LoadOnlyOfSelected | src/components/DataSourcesPanel.tsx:32-46 | the connector is called exactly when the download resolves; it gets the selected sibling's name, the table MIME type of its extension, and the converted name as table |
| RemoteLoad.ToastsOfRun | src/components/DataSourcesPanel.tsx:48-59 | the exact toasts of a click, for each way the collaborators can settle |
| RemoteLoad.ToastShape | src/components/DataSourcesPanel.tsx:48-59 | a click shows one toast, or two when only the refresh rejects; the first toast is the default variant exactly when the load succeeded; an error toast comes only last and always starts with "Failed to load Hugging Face dataset: " |
| RemoteLoad.RefreshOnlyAfterSuccess | src/components/DataSourcesPanel.tsx:46-53 | the schemas are refreshed exactly when the load succeeded, and the refresh comes right after the success toast |
| DropBatch.FileToast | src/components/DataSourcesPanel.tsx:96-106 | each file's toast is destructive exactly when its load rejected |
| DropBatch.BatchEvents | src/components/DataSourcesPanel.tsx:92-108 | the loop's trace has two events per dropped file (their content is stated by `DropBatch.BatchEventsAt`) |
| DropBatch.BatchEventsAt | src/components/DataSourcesPanel.tsx:92-108 | file k's turn is its load under its converted name, followed by the toast for its own outcome |
| DropBatch.BatchToasts | src/components/DataSourcesPanel.tsx:96-106 | the loop's toasts are one per file, in file order, each for that file's outcome |
| DropBatch.BatchLoads | src/components/DataSourcesPanel.tsx:94-95 | the loop's loads are one per file, in file order, each under its converted name |
| DropBatch.OnDrop | src/components/DataSourcesPanel.tsx:91-110 | the loop over the files produces the batch trace followed by one refresh, and the only rejection that escapes the handler is the refresh's |
| DropBatch.DropToastsPerFile | src/components/DataSourcesPanel.tsx:92-109 | dropping N files shows exactly N toasts, in file order, each for that file's own load outcome |
| DropBatch.DropLoadsInOrder | src/components/DataSourcesPanel.tsx:92-95 | every dropped file's load is attempted, whatever the earlier files' outcomes, in file order and under its converted name |
| DropBatch.DropRefreshOnceLast | src/components/DataSourcesPanel.tsx:108-109 | the schemas are refreshed exactly once, after the last file's turn |
| DropBatch.FailureIsolated | src/components/DataSourcesPanel.tsx:93-107 | a failing file does not disturb the others: changing one file's outcome changes only that file's toast |

## Left out

- `src/store.ts`, `src/components/MainView.tsx`, `src/models.ts` and `src/utils/ModelConnector.ts` are not part of this model. They are framework wiring, model constants and a thin chat-model request wrapper.
- `convertToValidColumnOrTableName` comes from an external library. It is the parameter `convert: string -> string`, and it is assumed total and never to throw. A throw inside the `try` blocks at `:45` and `:94` would give an error toast without a connector load, which the model does not produce.
- The network, JSON decoding, `blob()`, `connector.loadFile` and `refreshTableSchemas` are not modelled; each is replaced by the outcome it settles with.
- File bytes are not modelled. A `SourceFile` keeps only the name and the MIME type.
- The order of the collaborator calls is not modelled beyond what the trace records. React state timing and re-renders are also not modelled.
- Two clicks that overlap are not modelled. The button is disabled while `loading` is set, as `RemoteLoad.LoadDisabledDuringRun` states.
- `Ascii.Lower`: `toLowerCase` is modelled for ASCII letters only. Unicode case mapping is not modelled. Two consequences:
  - Names whose lower-cased suffix depends on non-ASCII letters are classified by their ASCII letters alone.
  - Characters whose lower case has a different length are not modelled.
- Rejections without a `message`: every rejection on the remote path is assumed to be a value with a `message` property. A rejection with `null` or `undefined` makes the read of `error.message` at `:58` throw inside the `catch`. Then no toast is shown, the `finally` still clears `loading`, and the rejection escapes the handler. The model does not produce that trace.
- `Events.Description`: a drop failure carries its error as a message string. The source interpolates the error value itself, so `String(error)` for an `Error` object reads `Error: <message>`. The remote path uses `error.message`, which the model carries as is. The contract also leaves out the dataset id in the success text (`:51`) and the file name in both drop texts (`:99`, `:105`); only the function's body places them. Because the id, file name and table name are interpolated between fixed words, a success or drop text does not determine them uniquely.
- The drop zone's own filtering of files by accepted format is not modelled. `Formats.DropzoneFormats` records the format table, and `DropBatch.OnDrop` receives the files the drop zone passes on.
- `RemoteLoad.ParseListingUrl`, `RemoteLoad.ParseFileUrl`: these parsers exist only to state the URL round trips. The source builds URLs and never parses them.
- The panel's layout, labels and the "Loading..." button text are not modelled.

=== FILE: ascii.dfy ===
/** ASCII case folding, character by character, as `String.prototype.toLowerCase` behaves on ASCII text. */
module Ascii {

  predicate IsUpper(c: char) {
    'A' <= c <= 'Z'
  }

  /** Lower-cases one character; only 'A'..'Z' change. */
  function LowerChar(c: char): (r: char)
    ensures !IsUpper(r)
    ensures r == c || IsUpper(c)
    ensures r == '.' <==> c == '.'
    ensures IsUpper(c) ==> r as int - 'a' as int == c as int - 'A' as int
  {
    if IsUpper(c) then (c as int - 'A' as int + 'a' as int) as char else c
  }

  /** Lower-cases a string; the length never changes under ASCII folding. */
  function Lower(s: string): (r: string)
    ensures |r| == |s|
    ensures forall i :: 0 <= i < |s| ==> r[i] == LowerChar(s[i])
  {
    seq(|s|, i requires 0 <= i < |s| => LowerChar(s[i]))
  }

  lemma LowerIdempotent(s: string)
    ensures Lower(Lower(s)) == Lower(s)
  {
  }

  /** Folding commutes with slicing. */
  lemma LowerSlice(s: string, lo: nat, hi: nat)
    requires lo <= hi <= |s|
    ensures Lower(s[lo..hi]) == Lower(s)[lo..hi]
  {
  }

  /** Folding never creates or removes a '.'. */
  lemma LowerKeepsDots(s: string)
    ensures '.' in Lower(s) <==> '.' in s
  {
    if '.' in s {
      var i :| 0 <= i < |s| && s[i] == '.';
      assert Lower(s)[i] == '.';
    }
    if '.' in Lower(s) {
      var i :| 0 <= i < |Lower(s)| && Lower(s)[i] == '.';
      assert s[i] == '.';
    }
  }
}

=== FILE: drop_batch.dfy ===
/** The drop zone's handler (`onDrop`): every dropped file is loaded in turn under a table name
    converted from its own name, each inside its own `try`/`catch`, so each file yields exactly
    one toast and a failure never stops the files after it; the table schemas are refreshed once,
    after the last file. */
module DropBatch {
  import opened Outcomes
  import opened Events

  /** The toast for one dropped file, by how its load settled. */
  function FileToast(name: string, table: string, outcome: Outcome): (e: Event)
    ensures e.Toast? && (VariantOf(e.notice) == Destructive <==> outcome.Err?)
  {
    match outcome
    case Ok => Toast(TableCreated(name, table))
    case Err(error) => Toast(FileFailed(name, error))
  }

  /** One turn of the loop: the connector's load, then that file's toast. */
  function FileEvents(file: SourceFile, outcome: Outcome, convert: string -> string): seq<Event> {
    [LoadFile(file, convert(file.name)), FileToast(file.name, convert(file.name), outcome)]
  }

  /** The loop's events, one turn per file, in file order. */
  function BatchEvents(files: seq<SourceFile>, outcomes: seq<Outcome>, convert: string -> string): (t: seq<Event>)
    requires |outcomes| == |files|
    ensures |t| == 2 * |files|
    decreases |files|
  {
    if |files| == 0 then []
    else FileEvents(files[0], outcomes[0], convert) + BatchEvents(files[1..], outcomes[1..], convert)
  }

  /** Position 2k of the batch is the load of file k and position 2k+1 its toast. */
  lemma {:induction false} BatchEventsAt(files: seq<SourceFile>, outcomes: seq<Outcome>, convert: string -> string, k: nat)
    requires |outcomes| == |files| && k < |files|
    ensures BatchEvents(files, outcomes, convert)[2 * k] == LoadFile(files[k], convert(files[k].name))
    ensures BatchEvents(files, outcomes, convert)[2 * k + 1] == FileToast(files[k].name, convert(files[k].name), outcomes[k])
    decreases k
  {
    if k > 0 {
      BatchEventsAt(files[1..], outcomes[1..], convert, k - 1);
      var rest := BatchEvents(files[1..], outcomes[1..], convert);
      assert BatchEvents(files, outcomes, convert) == FileEvents(files[0], outcomes[0], convert) + rest;
      assert BatchEvents(files, outcomes, convert)[2 * k] == rest[2 * (k - 1)];
      assert BatchEvents(files, outcomes, convert)[2 * k + 1] == rest[2 * (k - 1) + 1];
    }
  }

  /** Adding one more file to the batch adds its turn at the end. */
  lemma {:induction false} BatchEventsSnoc(files: seq<SourceFile>, outcomes: seq<Outcome>, convert: string -> string, i: nat)
    requires |outcomes| == |files| && i < |files|
    ensures BatchEvents(files[..i + 1], outcomes[..i + 1], convert) ==
      BatchEvents(files[..i], outcomes[..i], convert) + FileEvents(files[i], outcomes[i], convert)
    decreases i
  {
    var fs, os := files[..i + 1], outcomes[..i + 1];
    if i == 0 {
      assert fs[1..] == [] && os[1..] == [];
    } else {
      assert fs[1..] == files[1..][..i] && os[1..] == outcomes[1..][..i];
      assert files[..i][1..] == files[1..][..i - 1] && outcomes[..i][1..] == outcomes[1..][..i - 1];
      BatchEventsSnoc(files[1..], outcomes[1..], convert, i - 1);
    }
  }

  /** The batch shows one toast per file, in file order. */
  lemma {:induction false} BatchToasts(files: seq<SourceFile>, outcomes: seq<Outcome>, convert: string -> string)
    requires |outcomes| == |files|
    ensures |Toasts(BatchEvents(files, outcomes, convert))| == |files|
    ensures forall k :: 0 <= k < |files| ==>
      Toasts(BatchEvents(files, outcomes, convert))[k] == FileToast(files[k].name, convert(files[k].name), outcomes[k])
    decreases |files|
  {
    if |files| > 0 {
      var head := FileEvents(files[0], outcomes[0], convert);
      var rest := BatchEvents(files[1..], outcomes[1..], convert);
      BatchToasts(files[1..], outcomes[1..], convert);
      FilterAppend(head, rest, IsToast);
      FilterPair(head[0], head[1], IsToast);
      var ts := Toasts(BatchEvents(files, outcomes, convert));
      assert ts == [head[1]] + Toasts(rest);
      forall k | 1 <= k < |files|
        ensures ts[k] == FileToast(files[k].name, convert(files[k].name), outcomes[k])
      {
        assert ts[k] == Toasts(rest)[k - 1];
        assert files[1..][k - 1] == files[k] && outcomes[1..][k - 1] == outcomes[k];
      }
    }
  }

  /** The batch attempts every file, in file order, whatever happened to the files before it. */
  lemma {:induction false} BatchLoads(files: seq<SourceFile>, outcomes: seq<Outcome>, convert: string -> string)
    requires |outcomes| == |files|
    ensures |Filter(BatchEvents(files, outcomes, convert), IsLoad)| == |files|
    ensures forall k :: 0 <= k < |files| ==>
      Filter(BatchEvents(files, outcomes, convert), IsLoad)[k] == LoadFile(files[k], convert(files[k].name))
    decreases |files|
  {
    if |files| > 0 {
      var head := FileEvents(files[0], outcomes[0], convert);
      var rest := BatchEvents(files[1..], outcomes[1..], convert);
      BatchLoads(files[1..], outcomes[1..], convert);
      FilterAppend(head, rest, IsLoad);
      FilterPair(head[0], head[1], IsLoad);
      var ls := Filter(BatchEvents(files, outcomes, convert), IsLoad);
      assert ls == [head[0]] + Filter(rest, IsLoad);
      forall k | 1 <= k < |files|
        ensures ls[k] == LoadFile(files[k], convert(files[k].name))
      {
        assert ls[k] == Filter(rest, IsLoad)[k - 1];
        assert files[1..][k - 1] == files[k];
      }
    }
  }

  /** Runs the handler over the dropped files. `outcomes[k]` is how the connector's load of file
      k settles; `refresh` is how the schema refresh settles, and its rejection is the only one
      that escapes the handler. The loop's trace is the batch's turns followed by one refresh. */
  method OnDrop(files: seq<SourceFile>, outcomes: seq<Outcome>, refresh: Outcome, convert: string -> string)
    returns (trace: seq<Event>, escaped: Outcome)
    requires |outcomes| == |files|
    ensures trace == DropTrace(files, outcomes, convert)
    ensures escaped == refresh
  {
    trace := [];
    var i := 0;
    while i < |files|
      invariant 0 <= i <= |files|
      invariant trace == BatchEvents(files[..i], outcomes[..i], convert)
    {
      var table := convert(files[i].name);
      trace := trace + [LoadFile(files[i], table)];
      trace := trace + [FileToast(files[i].name, table, outcomes[i])];
      BatchEventsSnoc(files, outcomes, convert, i);
      i := i + 1;
    }
    assert files[..i] == files && outcomes[..i] == outcomes;
    trace := trace + [Refresh];
    escaped := refresh;
  }

  /** The whole handler's trace: the loop's turns, then the single refresh. */
  function DropTrace(files: seq<SourceFile>, outcomes: seq<Outcome>, convert: string -> string): seq<Event>
    requires |outcomes| == |files|
  {
    BatchEvents(files, outcomes, convert) + [Refresh]
  }

  /** N dropped files give N toasts, one per file in file order, each by its own load's outcome. */
  lemma DropToastsPerFile(files: seq<SourceFile>, outcomes: seq<Outcome>, convert: string -> string)
    requires |outcomes| == |files|
    ensures |Toasts(DropTrace(files, outcomes, convert))| == |files|
    ensures forall k :: 0 <= k < |files| ==>
      Toasts(DropTrace(files, outcomes, convert))[k] == FileToast(files[k].name, convert(files[k].name), outcomes[k])
  {
    BatchToasts(files, outcomes, convert);
    FilterAppend(BatchEvents(files, outcomes, convert), [Refresh], IsToast);
    FilterSingleton(Refresh, IsToast);
  }

  /** Every dropped file's load is attempted, in file order, under its converted name. */
  lemma DropLoadsInOrder(files: seq<SourceFile>, outcomes: seq<Outcome>, convert: string -> string)
    requires |outcomes| == |files|
    ensures |Filter(DropTrace(files, outcomes, convert), IsLoad)| == |files|
    ensures forall k :: 0 <= k < |files| ==>
      Filter(DropTrace(files, outcomes, convert), IsLoad)[k] == LoadFile(files[k], convert(files[k].name))
  {
    BatchLoads(files, outcomes, convert);
    FilterAppend(BatchEvents(files, outcomes, convert), [Refresh], IsLoad);
    FilterSingleton(Refresh, IsLoad);
  }

  /** The refresh is requested exactly once, after the last file's toast. */
  lemma DropRefreshOnceLast(files: seq<SourceFile>, outcomes: seq<Outcome>, convert: string -> string)
    requires |outcomes| == |files|
    ensures var t := DropTrace(files, outcomes, convert);
      t[|t| - 1] == Refresh && Refresh !in t[..|t| - 1]
  {
    var body := BatchEvents(files, outcomes, convert);
    var t := DropTrace(files, outcomes, convert);
    assert t[..|t| - 1] == body;
    forall p | 0 <= p < |body|
      ensures body[p] != Refresh
    {
      BatchEventsAt(files, outcomes, convert, p / 2);
      assert p == 2 * (p / 2) || p == 2 * (p / 2) + 1;
    }
  }

  /** Failures are isolated: two batches whose loads settle alike except for file j produce the
      same events everywhere but at file j's toast. */
  lemma FailureIsolated(files: seq<SourceFile>, o1: seq<Outcome>, o2: seq<Outcome>, convert: string -> string, j: nat)
    requires |o1| == |files| && |o2| == |files| && j < |files|
    requires forall k :: 0 <= k < |files| && k != j ==> o1[k] == o2[k]
    ensures var t1, t2 := BatchEvents(files, o1, convert), BatchEvents(files, o2, convert);
      |t1| == |t2| && forall p :: 0 <= p < |t1| && p != 2 * j + 1 ==> t1[p] == t2[p]
  {
    var t1, t2 := BatchEvents(files, o1, convert), BatchEvents(files, o2, convert);
    forall p | 0 <= p < |t1| && p != 2 * j + 1
      ensures t1[p] == t2[p]
    {
      var k := p / 2;
      assert p == 2 * k || p == 2 * k + 1;
      BatchEventsAt(files, o1, convert, k);
      BatchEventsAt(files, o2, convert, k);
    }
  }
}

=== FILE: events.dfy ===
/** The observable behaviour of the panel's handlers, recorded as a trace of calls into its
    collaborators: the `loading` state setter, `fetch`, the connector, the toast sink and the
    schema refresher. */
module Events {
  import opened Strings

  /** The toast variants the panel uses. */
  datatype Variant = Default | Destructive

  /** What a toast reports. The event keeps the facts the toast is built from; `VariantOf`,
      `Title` and `Description` give what the toast sink receives. */
  datatype Notice =
    | DatasetLoaded(hfId: string, table: string)
    | DatasetFailed(message: string)
    | TableCreated(fileName: string, table: string)
    | FileFailed(fileName: string, error: string)

  /** The text every remote-load error toast starts with. */
  const DatasetFailurePrefix: string := "Failed to load Hugging Face dataset: "

  function VariantOf(n: Notice): Variant {
    match n
    case DatasetLoaded(_, _) => Default
    case TableCreated(_, _) => Default
    case DatasetFailed(_) => Destructive
    case FileFailed(_, _) => Destructive
  }

  /** The toast title: "Error" exactly for the failure notices. */
  function Title(n: Notice): (title: string)
    ensures title == "Error" <==> VariantOf(n) == Destructive
  {
    match n
    case DatasetLoaded(_, _) => "Dataset loaded"
    case TableCreated(_, _) => "Table created"
    case DatasetFailed(_) => "Error"
    case FileFailed(_, _) => "Error"
  }

  /** The toast text; the part that varies (the table name, or the rejection's message) can be
      read back from it. */
  function Description(n: Notice): (d: string)
    ensures n.DatasetFailed? ==>
      StartsWith(d, DatasetFailurePrefix) && d[|DatasetFailurePrefix|..] == n.message
    ensures n.FileFailed? ==> EndsWith(d, n.error)
    ensures n.DatasetLoaded? || n.TableCreated? ==> EndsWith(d, n.table)
  {
    match n
    case DatasetLoaded(hfId, table) => "Hugging Face dataset " + hfId + " loaded as " + table
    case DatasetFailed(message) => DatasetFailurePrefix + message
    case TableCreated(name, table) => "File " + name + " loaded as " + table
    case FileFailed(name, error) => "Error loading file " + name + ": " + error
  }

  /** A file handed to the connector: its name and its MIME type. Byte content is not modelled. */
  datatype SourceFile = SourceFile(name: string, mime: string)

  datatype Event =
    | SetLoading(on: bool)
    | FetchListing(url: string)
    | FetchFile(url: string)
    | LoadFile(file: SourceFile, table: string)
    | Toast(notice: Notice)
    | Refresh

  predicate IsToast(e: Event) {
    e.Toast?
  }

  predicate IsLoad(e: Event) {
    e.LoadFile?
  }

  /** The value of the `loading` flag after `t`, which starts from `initial`: the value of the
      last flag update in `t`, or `initial` when there is none. */
  function LoadingAfter(t: seq<Event>, initial: bool): bool
    decreases |t|
  {
    if |t| == 0 then initial
    else if t[|t| - 1].SetLoading? then t[|t| - 1].on
    else LoadingAfter(t[..|t| - 1], initial)
  }

  /** A trace that sets the flag first and never touches it again leaves it set, at every
      point after the first event. */
  lemma {:induction false} LoadingAfterSetOnce(t: seq<Event>, initial: bool, k: nat)
    requires 1 <= k <= |t| && t[0] == SetLoading(true)
    requires forall j :: 1 <= j < k ==> !t[j].SetLoading?
    ensures LoadingAfter(t[..k], initial)
    decreases k
  {
    if k > 1 {
      assert t[..k][..k - 1] == t[..k - 1];
      LoadingAfterSetOnce(t, initial, k - 1);
    }
  }

  /** The events of `t` that satisfy `p`, in their order in `t`. */
  function Filter(t: seq<Event>, p: Event -> bool): (r: seq<Event>)
    ensures |r| <= |t|
    ensures forall k :: 0 <= k < |r| ==> p(r[k])
    decreases |t|
  {
    if |t| == 0 then []
    else (if p(t[0]) then [t[0]] else []) + Filter(t[1..], p)
  }

  lemma {:induction false} FilterAppend(a: seq<Event>, b: seq<Event>, p: Event -> bool)
    ensures Filter(a + b, p) == Filter(a, p) + Filter(b, p)
    decreases |a|
  {
    if |a| == 0 {
      assert a + b == b;
    } else {
      assert (a + b)[0] == a[0];
      assert (a + b)[1..] == a[1..] + b;
      FilterAppend(a[1..], b, p);
    }
  }

  lemma FilterSingleton(e: Event, p: Event -> bool)
    ensures Filter([e], p) == if p(e) then [e] else []
  {
    assert [e][1..] == [];
  }

  /** The filter of a two-event block. */
  lemma FilterPair(a: Event, b: Event, p: Event -> bool)
    ensures Filter([a, b], p) == (if p(a) then [a] else []) + (if p(b) then [b] else [])
  {
    assert [a, b] == [a] + [b];
    FilterAppend([a], [b], p);
    FilterSingleton(a, p);
    FilterSingleton(b, p);
  }

  lemma {:induction false} FilterNone(t: seq<Event>, p: Event -> bool)
    requires forall k :: 0 <= k < |t| ==> !p(t[k])
    ensures Filter(t, p) == []
    decreases |t|
  {
    if |t| > 0 {
      FilterNone(t[1..], p);
    }
  }

  /** The toasts shown, in order. */
  function Toasts(t: seq<Event>): seq<Event> {
    Filter(t, IsToast)
  }

  /** Events that are not toasts on either side of a block leave the block's toasts unchanged. */
  lemma ToastsAround(pre: seq<Event>, mid: seq<Event>, post: seq<Event>)
    requires forall k :: 0 <= k < |pre| ==> !pre[k].Toast?
    requires forall k :: 0 <= k < |post| ==> !post[k].Toast?
    ensures Toasts(pre + mid + post) == Toasts(mid)
  {
    FilterAppend(pre + mid, post, IsToast);
    FilterAppend(pre, mid, IsToast);
    FilterNone(pre, IsToast);
    FilterNone(post, IsToast);
  }

  /** The toasts of a toast, a non-toast and another toast. */
  lemma ToastsOfPair(a: Event, b: Event, c: Event)
    requires a.Toast? && !b.Toast? && c.Toast?
    ensures Toasts([a, b, c]) == [a, c]
  {
    assert [a, b, c] == [a] + [b] + [c];
    FilterAppend([a] + [b], [c], IsToast);
    FilterAppend([a], [b], IsToast);
  }

  /** A trace whose only toast is its next-to-last event shows exactly that toast. */
  lemma ToastsNextToLast(t: seq<Event>)
    requires |t| >= 2 && t[|t| - 2].Toast? && !t[|t| - 1].Toast?
    requires forall k :: 0 <= k < |t| - 2 ==> !t[k].Toast?
    ensures Toasts(t) == [t[|t| - 2]]
  {
    var pre, mid, post := t[..|t| - 2], [t[|t| - 2]], [t[|t| - 1]];
    assert t == pre + mid + post;
    ToastsAround(pre, mid, post);
    FilterSingleton(mid[0], IsToast);
  }
}

=== FILE: formats.dfy ===
/** The file formats the data-sources panel knows about: the remote suffix list, the extension
    taken from a file name, the extension-to-MIME table, and the drop zone's accepted formats. */
module Formats {
  import opened Ascii
  import opened Strings

  /** The suffixes a remote sibling may end with, in the order they are tried. */
  const RemoteSuffixes: seq<string> := [".csv", ".json", ".jsonl", ".parquet", ".arrow"]

  /** The same formats as bare extension names. */
  const RemoteExtensions: seq<string> := ["csv", "json", "jsonl", "parquet", "arrow"]

  /** The fallback MIME type of the lookup chain. */
  const DefaultMime: string := "application/octet-stream"

  /** The extension-to-MIME table the lookup chain encodes. */
  const MimeTable: map<string, string> := map[
    "csv" := "text/csv",
    "json" := "application/json",
    "jsonl" := "application/jsonl",
    "parquet" := "application/octet-stream",
    "arrow" := "application/vnd.apache.arrow.file"
  ]

  /** The drop zone's accepted formats as (MIME type, suffix) pairs, in declaration order. */
  const DropzoneFormats: seq<(string, string)> := [
    ("text/csv", ".csv"),
    ("text/tsv", ".tsv"),
    ("text/parquet", ".parquet"),
    ("text/json", ".json"),
    ("application/jsonl", ".jsonl"),
    ("application/vnd.apache.arrow.file", ".arrow")
  ]

  /** A sibling is a candidate when its lower-cased name ends with one of the remote suffixes. */
  predicate IsRemoteCandidate(rfilename: string) {
    exists i :: 0 <= i < |RemoteSuffixes| && EndsWith(Lower(rfilename), RemoteSuffixes[i])
  }

  /** `rfilename.split('.').pop()?.toLowerCase() || ''`. The split is never empty, so `pop` always
      yields a string and the `|| ''` fallback maps '' to itself. */
  function ExtensionOf(rfilename: string): (ext: string)
    ensures '.' !in ext
    ensures |ext| <= |rfilename|
    ensures EndsWith(Lower(rfilename), ext)
    ensures |ext| < |rfilename| ==> rfilename[|rfilename| - |ext| - 1] == '.'
  {
    LowerKeepsDots(LastSegment(rfilename, '.'));
    LowerSlice(rfilename, |rfilename| - |LastSegment(rfilename, '.')|, |rfilename|);
    Lower(LastSegment(rfilename, '.'))
  }

  /** The conditional chain that picks a MIME type from an extension; it agrees with the table,
      and every extension outside the table gets the generic binary type. */
  function MimeType(ext: string): (mime: string)
    ensures ext in MimeTable ==> mime == MimeTable[ext]
    ensures ext !in MimeTable ==> mime == DefaultMime
  {
    if ext == "csv" then "text/csv"
    else if ext == "json" then "application/json"
    else if ext == "jsonl" then "application/jsonl"
    else if ext == "parquet" then "application/octet-stream"
    else if ext == "arrow" then "application/vnd.apache.arrow.file"
    else "application/octet-stream"
  }

  /** The suffix list and the MIME table describe the same five formats. */
  lemma SuffixesMatchTable()
    ensures |RemoteSuffixes| == |RemoteExtensions|
    ensures forall i :: 0 <= i < |RemoteSuffixes| ==> RemoteSuffixes[i] == "." + RemoteExtensions[i]
    ensures forall e :: e in MimeTable <==> e in RemoteExtensions
  {
  }

  /** When the lower-cased name ends with "." + e, the extracted extension is e. */
  lemma ExtensionOfDottedSuffix(rfilename: string, e: string)
    requires '.' !in e
    requires EndsWith(Lower(rfilename), "." + e)
    ensures ExtensionOf(rfilename) == e
  {
    var n := |rfilename|;
    var k := |e|;
    var low := Lower(rfilename);
    assert low[n - k - 1..][0] == '.';
    assert rfilename[n - k - 1] == '.';
    LowerSlice(rfilename, n - k, n);
    assert Lower(rfilename[n - k..]) == e by {
      assert low[n - k..] == (low[n - k - 1..])[1..];
    }
    LowerKeepsDots(rfilename[n - k..]);
    LastSegmentAfter(rfilename, '.', k);
  }

  /** For a candidate file the extension is one of the five table keys, so the chain's
      default branch is never taken for it. */
  lemma CandidateExtensionIsKnown(rfilename: string)
    requires IsRemoteCandidate(rfilename)
    ensures ExtensionOf(rfilename) in RemoteExtensions
    ensures ExtensionOf(rfilename) in MimeTable
    ensures MimeType(ExtensionOf(rfilename)) == MimeTable[ExtensionOf(rfilename)]
  {
    var i :| 0 <= i < |RemoteSuffixes| && EndsWith(Lower(rfilename), RemoteSuffixes[i]);
    SuffixesMatchTable();
    ExtensionOfDottedSuffix(rfilename, RemoteExtensions[i]);
  }

  /** Matching ignores ASCII case. */
  lemma CandidateIgnoresCase(rfilename: string)
    ensures IsRemoteCandidate(rfilename) <==> IsRemoteCandidate(Lower(rfilename))
  {
    LowerIdempotent(rfilename);
  }

  /** A ".tsv" file is never a remote candidate, whatever its case. */
  lemma TsvIsNotRemoteCandidate(rfilename: string)
    requires EndsWith(Lower(rfilename), ".tsv")
    ensures !IsRemoteCandidate(rfilename)
  {
    var low := Lower(rfilename);
    forall i | 0 <= i < |RemoteSuffixes|
      ensures !EndsWith(low, RemoteSuffixes[i])
    {
      if EndsWith(low, RemoteSuffixes[i]) {
        EndsWithBoth(low, RemoteSuffixes[i], ".tsv");
      }
    }
  }

  /** Every remote suffix is accepted by the drop zone, which also accepts ".tsv". */
  lemma RemoteFormatsAreDroppable()
    ensures forall i :: 0 <= i < |RemoteSuffixes| ==>
      exists j :: 0 <= j < |DropzoneFormats| && DropzoneFormats[j].1 == RemoteSuffixes[i]
    ensures exists j :: 0 <= j < |DropzoneFormats| && DropzoneFormats[j].1 == ".tsv"
    ensures ".tsv" !in RemoteSuffixes
  {
    assert DropzoneFormats[0].1 == RemoteSuffixes[0];
    assert DropzoneFormats[3].1 == RemoteSuffixes[1];
    assert DropzoneFormats[4].1 == RemoteSuffixes[2];
    assert DropzoneFormats[2].1 == RemoteSuffixes[3];
    assert DropzoneFormats[5].1 == RemoteSuffixes[4];
    assert DropzoneFormats[1].1 == ".tsv";
  }
}

=== FILE: outcomes.dfy ===
/** Failure-carrying wrappers for the outcomes of the panel's collaborators. */
module Outcomes {

  /** A value that may be absent, as `Array.prototype.find` returns `undefined`. */
  datatype Option<+T> = None | Some(value: T)

  /** The settlement of an awaited call that yields nothing: it resolves, or it rejects with a message. */
  datatype Outcome = Ok | Err(message: string)

  /** The settlement of an awaited call that yields a value. */
  datatype Result<+T> = Success(value: T) | Failure(message: string)
}

=== FILE: remote_load.dfy ===
/** The remote dataset handler (`handleHuggingFaceLoad`): it fetches the dataset's file listing,
    selects the first supported sibling, downloads it, hands it to the connector under a derived
    table name, and reports through toasts; the `loading` flag brackets the whole run.
    Every awaited collaborator is replaced by the outcome it settles with. */
module RemoteLoad {
  import opened Outcomes
  import opened Strings
  import opened Formats
  import opened Selection
  import opened Events

  const ListingPrefix: string := "https://huggingface.co/api/datasets/"
  const ListingSuffix: string := "/revision/main"
  const FilePrefix: string := "https://huggingface.co/datasets/"
  const FileInfix: string := "/resolve/main/"

  const NoMatchMessage: string := "No CSV, JSON, JSONL, Parquet, or Arrow file found in dataset."

  /** How each awaited collaborator settles in one run of the handler.
      `listing` fails when the listing request, its JSON decoding, or the read of `siblings` throws;
      `download` stands for the file request and its `blob()`; `load` for `connector.loadFile`;
      `refresh` for `refreshTableSchemas`. */
  datatype RemoteWorld = RemoteWorld(
    listing: Result<seq<string>>,
    download: Outcome,
    load: Outcome,
    refresh: Outcome)

  /** The dataset's metadata URL. */
  function ListingUrl(hfId: string): string
  {
    ListingPrefix + hfId + ListingSuffix
  }

  /** Recovers the dataset id from a metadata URL. */
  function ParseListingUrl(url: string): (r: Option<string>)
    ensures r.Some? ==> |r.value| + |ListingPrefix| + |ListingSuffix| == |url|
  {
    if StartsWith(url, ListingPrefix) && EndsWith(url, ListingSuffix)
       && |ListingPrefix| + |ListingSuffix| <= |url|
    then Some(url[|ListingPrefix|..|url| - |ListingSuffix|])
    else None
  }

  /** The URL of one file of the dataset. */
  function FileUrl(hfId: string, rfilename: string): string
  {
    FilePrefix + hfId + FileInfix + rfilename
  }

  /** Recovers the file name from a file URL of a known dataset. */
  function ParseFileUrl(hfId: string, url: string): (r: Option<string>)
    ensures r.Some? ==> EndsWith(url, r.value)
  {
    var base := FilePrefix + hfId + FileInfix;
    if StartsWith(url, base) then Some(url[|base|..]) else None
  }

  /** The metadata URL and its parser are inverse to each other, in both directions. */
  lemma ListingUrlRoundTrip(hfId: string, url: string)
    ensures ParseListingUrl(ListingUrl(hfId)) == Some(hfId)
    ensures ParseListingUrl(url) == Some(hfId) ==> ListingUrl(hfId) == url
  {
    var u := ListingUrl(hfId);
    assert u[|ListingPrefix|..|u| - |ListingSuffix|] == hfId;
    if ParseListingUrl(url) == Some(hfId) {
      assert url == url[..|ListingPrefix|] + url[|ListingPrefix|..|url| - |ListingSuffix|] + url[|url| - |ListingSuffix|..];
    }
  }

  /** The file URL determines the file name, for a fixed dataset. */
  lemma FileUrlRoundTrip(hfId: string, rfilename: string, url: string)
    ensures ParseFileUrl(hfId, FileUrl(hfId, rfilename)) == Some(rfilename)
    ensures ParseFileUrl(hfId, url) == Some(rfilename) ==> FileUrl(hfId, rfilename) == url
  {
    var base := FilePrefix + hfId + FileInfix;
    assert FileUrl(hfId, rfilename) == base + rfilename;
    assert (base + rfilename)[|base|..] == rfilename;
    if ParseFileUrl(hfId, url) == Some(rfilename) {
      assert url == url[..|base|] + url[|base|..];
    }
  }

  function ErrorToast(message: string): Event {
    Toast(DatasetFailed(message))
  }

  function LoadedToast(hfId: string, table: string): Event {
    Toast(DatasetLoaded(hfId, table))
  }

  /** Where a run ends: the first awaited step that rejects, or the load completing; a refresh
      that rejects comes after the success toast and adds an error toast of its own. */
  datatype Stage =
    | ListingFailed(message: string)
    | NoMatch
    | DownloadFailed(name: string, message: string)
    | LoadFailed(name: string, message: string)
    | Loaded(name: string)
    | RefreshFailed(name: string, message: string)

  /** Runs the steps of the handler in order and stops at the first rejection. */
  function StageOf(w: RemoteWorld): (st: Stage)
    ensures st.ListingFailed? <==> w.listing.Failure?
    ensures st.ListingFailed? ==> w.listing == Failure(st.message)
    ensures st.DownloadFailed? ==> w.download == Err(st.message)
    ensures st.LoadFailed? ==> w.download.Ok? && w.load == Err(st.message)
    ensures st.RefreshFailed? ==> w.download.Ok? && w.load.Ok? && w.refresh == Err(st.message)
    ensures st.NoMatch? ==> w.listing.Success? && SelectSibling(w.listing.value).None?
    ensures (st.DownloadFailed? || st.LoadFailed? || st.Loaded? || st.RefreshFailed?) ==>
      && w.listing.Success?
      && SelectSibling(w.listing.value).Some?
      && st.name == w.listing.value[SelectSibling(w.listing.value).value]
  {
    match w.listing
    case Failure(m) => ListingFailed(m)
    case Success(siblings) =>
      match SelectSibling(siblings)
      case None => NoMatch
      case Some(i) =>
        match w.download
        case Err(m) => DownloadFailed(siblings[i], m)
        case Ok =>
          match w.load
          case Err(m) => LoadFailed(siblings[i], m)
          case Ok =>
            match w.refresh
            case Ok => Loaded(siblings[i])
            case Err(m) => RefreshFailed(siblings[i], m)
  }

  /** The file the connector receives: the downloaded bytes under the sibling's own name, typed
      through the MIME lookup of its extension. */
  function DownloadedFile(name: string): SourceFile {
    SourceFile(name, MimeType(ExtensionOf(name)))
  }

  /** A downloaded candidate keeps its name and is typed by the MIME table's entry for its
      extension, never by the fallback type. */
  lemma DownloadedFileTyped(name: string)
    requires IsRemoteCandidate(name)
    ensures DownloadedFile(name).name == name
    ensures ExtensionOf(name) in MimeTable && DownloadedFile(name).mime == MimeTable[ExtensionOf(name)]
  {
    CandidateExtensionIsKnown(name);
  }

  /** The stage is past the selection: a sibling was chosen and its download requested. */
  predicate Selects(st: Stage) {
    st.DownloadFailed? || st.LoadFailed? || st.Loaded? || st.RefreshFailed?
  }

  /** The stage is past the download: the file was handed to the connector. */
  predicate Downloads(st: Stage) {
    st.LoadFailed? || st.Loaded? || st.RefreshFailed?
  }

  /** The stage is past the connector's load: the success toast was shown. */
  predicate Completes(st: Stage) {
    st.Loaded? || st.RefreshFailed?
  }

  /** The events of a run that ends at `st`: the listing request always; the download once a
      sibling is selected; the connector's load once the download resolved; the success toast and
      the schema refresh once the load resolved; and the `catch` block's single error toast for
      whatever rejected first. `loading` is set before anything else and cleared after everything
      else, on every path, and nothing in between touches it. */
  function Run(hfId: string, st: Stage, convert: string -> string): (t: seq<Event>)
    ensures |t| >= 4
    ensures t[0] == SetLoading(true) && t[1] == FetchListing(ListingUrl(hfId))
    ensures t[|t| - 1] == SetLoading(false)
    ensures forall k :: 1 <= k < |t| - 1 ==> !t[k].SetLoading?
  {
    var on, off, listing := SetLoading(true), SetLoading(false), FetchListing(ListingUrl(hfId));
    match st
    case ListingFailed(m) => [on, listing, ErrorToast(m), off]
    case NoMatch => [on, listing, ErrorToast(NoMatchMessage), off]
    case DownloadFailed(n, m) => [on, listing, FetchFile(FileUrl(hfId, n)), ErrorToast(m), off]
    case LoadFailed(n, m) =>
      [on, listing, FetchFile(FileUrl(hfId, n)), LoadFile(DownloadedFile(n), convert(n)), ErrorToast(m), off]
    case Loaded(n) =>
      [on, listing, FetchFile(FileUrl(hfId, n)), LoadFile(DownloadedFile(n), convert(n)),
       LoadedToast(hfId, convert(n)), Refresh, off]
    case RefreshFailed(n, m) =>
      [on, listing, FetchFile(FileUrl(hfId, n)), LoadFile(DownloadedFile(n), convert(n)),
       LoadedToast(hfId, convert(n)), Refresh, ErrorToast(m), off]
  }

  /** One click of "Load" against collaborators that settle as `w` says. */
  function HandleLoad(hfId: string, w: RemoteWorld, convert: string -> string): (t: seq<Event>)
    ensures |t| >= 4
    ensures t[0] == SetLoading(true) && t[1] == FetchListing(ListingUrl(hfId))
    ensures t[|t| - 1] == SetLoading(false)
    ensures forall k :: 1 <= k < |t| - 1 ==> !t[k].SetLoading?
  {
    Run(hfId, StageOf(w), convert)
  }

  /** The "Load" button is enabled only when no load is running and an id has been typed. */
  function LoadEnabled(loading: bool, hfId: string): bool {
    !(loading || hfId == "")
  }

  /** The listing was read and has a supported sibling. */
  predicate Matches(w: RemoteWorld) {
    w.listing.Success? && SelectSibling(w.listing.value).Some?
  }

  /** The selected sibling's name. */
  function Selected(w: RemoteWorld): string
    requires Matches(w)
  {
    w.listing.value[SelectSibling(w.listing.value).value]
  }

  /** Every step up to and including the connector's load resolved. */
  predicate Succeeds(w: RemoteWorld) {
    Matches(w) && w.download.Ok? && w.load.Ok?
  }

  /** How the stage reflects the collaborators' outcomes. */
  lemma StageAgrees(w: RemoteWorld)
    ensures Selects(StageOf(w)) <==> Matches(w)
    ensures Downloads(StageOf(w)) <==> Matches(w) && w.download.Ok?
    ensures Completes(StageOf(w)) <==> Succeeds(w)
    ensures Selects(StageOf(w)) ==> StageOf(w).name == Selected(w)
    ensures StageOf(w).RefreshFailed? <==> Succeeds(w) && w.refresh.Err?
  {
  }

  /** Before the selection no file is downloaded. */
  lemma RunDownloadsNone(hfId: string, st: Stage, convert: string -> string)
    requires !Selects(st)
    ensures forall e :: e in Run(hfId, st, convert) ==> !e.FetchFile?
  {
  }

  /** Past the selection, the third event downloads the selected file, and no other file is. */
  lemma RunDownloadsSelected(hfId: string, st: Stage, convert: string -> string)
    requires Selects(st)
    ensures Run(hfId, st, convert)[2] == FetchFile(FileUrl(hfId, st.name))
    ensures forall e :: e in Run(hfId, st, convert) && e.FetchFile? ==> e == FetchFile(FileUrl(hfId, st.name))
  {
  }

  /** Stage-level facts: which file a run downloads. */
  lemma RunDownloads(hfId: string, st: Stage, convert: string -> string)
    ensures Selects(st) ==> FetchFile(FileUrl(hfId, st.name)) in Run(hfId, st, convert)
    ensures forall e :: e in Run(hfId, st, convert) && e.FetchFile? ==>
      Selects(st) && e == FetchFile(FileUrl(hfId, st.name))
  {
    if Selects(st) {
      RunDownloadsSelected(hfId, st, convert);
    } else {
      RunDownloadsNone(hfId, st, convert);
    }
  }

  /** Before the download resolves nothing reaches the connector. */
  lemma RunLoadsNone(hfId: string, st: Stage, convert: string -> string)
    requires !Downloads(st)
    ensures forall e :: e in Run(hfId, st, convert) ==> !e.LoadFile?
  {
  }

  /** Past the download, the fourth event hands the downloaded file to the connector, and
      nothing else is. */
  lemma RunLoadsDownloaded(hfId: string, st: Stage, convert: string -> string)
    requires Downloads(st)
    ensures Run(hfId, st, convert)[3] == LoadFile(DownloadedFile(st.name), convert(st.name))
    ensures forall e :: e in Run(hfId, st, convert) && e.LoadFile? ==>
      e == LoadFile(DownloadedFile(st.name), convert(st.name))
  {
  }

  /** Stage-level facts: which file a run hands to the connector. */
  lemma RunLoads(hfId: string, st: Stage, convert: string -> string)
    ensures Downloads(st) ==> LoadFile(DownloadedFile(st.name), convert(st.name)) in Run(hfId, st, convert)
    ensures forall e :: e in Run(hfId, st, convert) && e.LoadFile? ==>
      Downloads(st) && e == LoadFile(DownloadedFile(st.name), convert(st.name))
  {
    if Downloads(st) {
      RunLoadsDownloaded(hfId, st, convert);
    } else {
      RunLoadsNone(hfId, st, convert);
    }
  }

  /** A run that stops before the load resolved shows one toast, the one just before `loading`
      is cleared. */
  lemma RunToastsEarly(hfId: string, st: Stage, convert: string -> string)
    requires !Completes(st)
    ensures var t := Run(hfId, st, convert); Toasts(t) == [t[|t| - 2]]
  {
    ToastsNextToLast(Run(hfId, st, convert));
  }


  /** A run whose load and refresh resolved shows the success toast only. */
  lemma RunToastsLoaded(hfId: string, st: Stage, convert: string -> string)
    requires st.Loaded?
    ensures var t := Run(hfId, st, convert); Toasts(t) == [t[4]]
  {
    var t := Run(hfId, st, convert);
    var requests := [SetLoading(true), FetchListing(ListingUrl(hfId)),
                     FetchFile(FileUrl(hfId, st.name)), LoadFile(DownloadedFile(st.name), convert(st.name))];
    var reports := [LoadedToast(hfId, convert(st.name)), Refresh];
    assert t == requests + reports + [SetLoading(false)];
    ToastsAround(requests, reports, [SetLoading(false)]);
    FilterPair(reports[0], reports[1], IsToast);
  }

  /** A run whose refresh rejected shows the success toast, then the error toast. */
  lemma RunToastsRefreshFailed(hfId: string, st: Stage, convert: string -> string)
    requires st.RefreshFailed?
    ensures var t := Run(hfId, st, convert); Toasts(t) == [t[4], t[6]]
  {
    var t := Run(hfId, st, convert);
    var requests := [SetLoading(true), FetchListing(ListingUrl(hfId)),
                     FetchFile(FileUrl(hfId, st.name)), LoadFile(DownloadedFile(st.name), convert(st.name))];
    var reports := [LoadedToast(hfId, convert(st.name)), Refresh, ErrorToast(st.message)];
    assert t == requests + reports + [SetLoading(false)];
    ToastsAround(requests, reports, [SetLoading(false)]);
    ToastsOfPair(reports[0], reports[1], reports[2]);
  }

  /** Stage-level facts: the toasts of a run. */
  lemma RunToasts(hfId: string, st: Stage, convert: string -> string)
    ensures var ts := Toasts(Run(hfId, st, convert));
      match st
      case ListingFailed(m) => ts == [ErrorToast(m)]
      case NoMatch => ts == [ErrorToast(NoMatchMessage)]
      case DownloadFailed(_, m) => ts == [ErrorToast(m)]
      case LoadFailed(_, m) => ts == [ErrorToast(m)]
      case Loaded(name) => ts == [LoadedToast(hfId, convert(name))]
      case RefreshFailed(name, m) => ts == [LoadedToast(hfId, convert(name)), ErrorToast(m)]
  {
    if st.Loaded? {
      RunToastsLoaded(hfId, st, convert);
    } else if st.RefreshFailed? {
      RunToastsRefreshFailed(hfId, st, convert);
    } else {
      RunToastsEarly(hfId, st, convert);
    }
  }

  /** A run that stops before the load resolved never refreshes. */
  lemma RunRefreshNone(hfId: string, st: Stage, convert: string -> string)
    requires !Completes(st)
    ensures Refresh !in Run(hfId, st, convert)
  {
  }

  /** A run whose load resolved shows the success toast fifth and refreshes sixth. */
  lemma RunRefreshCompleted(hfId: string, st: Stage, convert: string -> string)
    requires Completes(st)
    ensures var t := Run(hfId, st, convert);
      t[5] == Refresh && t[4] == LoadedToast(hfId, convert(st.name))
  {
  }

  /** Stage-level facts: where the schema refresh happens. */
  lemma RunRefresh(hfId: string, st: Stage, convert: string -> string)
    ensures Refresh in Run(hfId, st, convert) <==> Completes(st)
    ensures Completes(st) ==>
      var t := Run(hfId, st, convert);
      t[5] == Refresh && t[4] == LoadedToast(hfId, convert(st.name))
  {
    if Completes(st) {
      RunRefreshCompleted(hfId, st, convert);
    } else {
      RunRefreshNone(hfId, st, convert);
    }
  }

  /** With no supported sibling the run stops after the listing: a single error toast, and no
      download, no load and no refresh. */
  lemma NoMatchStopsAfterListing(hfId: string, w: RemoteWorld, convert: string -> string)
    requires w.listing.Success? && !Matches(w)
    ensures HandleLoad(hfId, w, convert) ==
      [SetLoading(true), FetchListing(ListingUrl(hfId)), ErrorToast(NoMatchMessage), SetLoading(false)]
  {
  }

  /** A file is downloaded exactly when the listing yields a supported sibling, and only that
      sibling's URL is requested. */
  lemma DownloadOnlyOfSelected(hfId: string, w: RemoteWorld, convert: string -> string)
    ensures Matches(w) ==> FetchFile(FileUrl(hfId, Selected(w))) in HandleLoad(hfId, w, convert)
    ensures forall e :: e in HandleLoad(hfId, w, convert) && e.FetchFile? ==>
      Matches(w) && e == FetchFile(FileUrl(hfId, Selected(w)))
  {
    StageAgrees(w);
    RunDownloads(hfId, StageOf(w), convert);
  }

  /** A table is loaded exactly when a supported sibling was downloaded; the file keeps the
      sibling's name, its MIME type comes from the table (never from the fallback), and the table
      name is the conversion of that name. */
  lemma LoadOnlyOfSelected(hfId: string, w: RemoteWorld, convert: string -> string)
    ensures Matches(w) && w.download.Ok? ==>
      LoadFile(DownloadedFile(Selected(w)), convert(Selected(w))) in HandleLoad(hfId, w, convert)
    ensures forall e :: e in HandleLoad(hfId, w, convert) && e.LoadFile? ==>
      && Matches(w) && w.download.Ok?
      && e.file.name == Selected(w)
      && e.table == convert(Selected(w))
      && ExtensionOf(Selected(w)) in MimeTable
      && e.file.mime == MimeTable[ExtensionOf(Selected(w))]
  {
    StageAgrees(w);
    RunLoads(hfId, StageOf(w), convert);
    if Matches(w) {
      assert IsRemoteCandidate(Selected(w));
      CandidateExtensionIsKnown(Selected(w));
    }
  }

  /** The toasts of one run: on success a success toast, followed by an error toast only if the
      refresh rejected; on any earlier rejection a single error toast carrying that rejection's
      message, and nothing else. */
  lemma ToastsOfRun(hfId: string, w: RemoteWorld, convert: string -> string)
    ensures var ts := Toasts(HandleLoad(hfId, w, convert));
      match StageOf(w)
      case ListingFailed(m) => ts == [ErrorToast(m)]
      case NoMatch => ts == [ErrorToast(NoMatchMessage)]
      case DownloadFailed(_, m) => ts == [ErrorToast(m)]
      case LoadFailed(_, m) => ts == [ErrorToast(m)]
      case Loaded(name) => ts == [LoadedToast(hfId, convert(name))]
      case RefreshFailed(name, m) => ts == [LoadedToast(hfId, convert(name)), ErrorToast(m)]
  {
    RunToasts(hfId, StageOf(w), convert);
  }

  /** Every run shows one or two toasts; a success toast exactly when every step up to the load
      resolved; an error toast only last, and always with the handler's failure prefix; two toasts
      only when the refresh alone rejected. */
  lemma ToastShape(hfId: string, w: RemoteWorld, convert: string -> string)
    ensures var ts := Toasts(HandleLoad(hfId, w, convert));
      && |ts| == (if Succeeds(w) && w.refresh.Err? then 2 else 1)
      && (VariantOf(ts[0].notice) == Default <==> Succeeds(w))
      && (forall k :: 0 <= k < |ts| && VariantOf(ts[k].notice) == Destructive ==>
            k == |ts| - 1 && StartsWith(Description(ts[k].notice), DatasetFailurePrefix))
  {
    RunToasts(hfId, StageOf(w), convert);
    StageAgrees(w);
  }

  /** The schema refresh is requested exactly when the load succeeded, and right after the
      success toast. */
  lemma RefreshOnlyAfterSuccess(hfId: string, w: RemoteWorld, convert: string -> string)
    ensures Refresh in HandleLoad(hfId, w, convert) <==> Succeeds(w)
    ensures Succeeds(w) ==>
      var t := HandleLoad(hfId, w, convert);
      t[5] == Refresh && t[4] == LoadedToast(hfId, convert(Selected(w)))
  {
    StageAgrees(w);
    RunRefresh(hfId, StageOf(w), convert);
  }

  /** The "Load" button stays disabled from the moment a click sets `loading` until the run
      clears it, whatever `loading` was before; once the run is over the button is enabled again
      exactly when the id is non-empty. */
  lemma LoadDisabledDuringRun(hfId: string, w: RemoteWorld, convert: string -> string, before: bool)
    ensures var t := HandleLoad(hfId, w, convert);
      forall k :: 1 <= k < |t| ==> !LoadEnabled(LoadingAfter(t[..k], before), hfId)
    ensures var t := HandleLoad(hfId, w, convert);
      !LoadingAfter(t, before) && (LoadEnabled(LoadingAfter(t, before), hfId) <==> hfId != "")
  {
    var t := HandleLoad(hfId, w, convert);
    forall k | 1 <= k < |t|
      ensures LoadingAfter(t[..k], before)
    {
      LoadingAfterSetOnce(t, before, k);
    }
  }
}

=== FILE: selection.dfy ===
/** First-match selection over the remote file listing (`siblings.find(...)`). */
module Selection {
  import opened Outcomes
  import opened Ascii
  import opened Formats

  /** `xs.find(p)`, as an index: the first position, in order, whose element satisfies `p`,
      or None when no element does. */
  function FindFirst<T>(xs: seq<T>, p: T -> bool): (r: Option<nat>)
    ensures r.Some? ==> r.value < |xs| && p(xs[r.value])
    ensures r.Some? ==> forall j :: 0 <= j < r.value ==> !p(xs[j])
    ensures r.None? ==> forall j :: 0 <= j < |xs| ==> !p(xs[j])
    decreases |xs|
  {
    if |xs| == 0 then None
    else if p(xs[0]) then Some(0)
    else
      match FindFirst(xs[1..], p)
      case None => None
      case Some(i) => Some(i + 1)
  }

  /** The sibling the remote handler downloads: the first candidate in listing order. */
  function SelectSibling(siblings: seq<string>): (r: Option<nat>)
    ensures r.Some? ==> r.value < |siblings| && IsRemoteCandidate(siblings[r.value])
    ensures r.Some? ==> forall j :: 0 <= j < r.value ==> !IsRemoteCandidate(siblings[j])
    ensures r.None? <==> forall j :: 0 <= j < |siblings| ==> !IsRemoteCandidate(siblings[j])
  {
    FindFirst(siblings, IsRemoteCandidate)
  }

  /** The selection is fixed by which entries are candidates: two listings whose entries
      agree on that pick the same position. */
  lemma SelectionDependsOnlyOnCandidacy(a: seq<string>, b: seq<string>)
    requires |a| == |b|
    requires forall j :: 0 <= j < |a| ==> (IsRemoteCandidate(a[j]) <==> IsRemoteCandidate(b[j]))
    ensures SelectSibling(a) == SelectSibling(b)
  {
  }

  /** Matching is case-insensitive: lower-casing every name in the listing selects the same entry. */
  lemma SelectionIgnoresCase(siblings: seq<string>)
    ensures SelectSibling(siblings) == SelectSibling(seq(|siblings|, j requires 0 <= j < |siblings| => Lower(siblings[j])))
  {
    var lowered := seq(|siblings|, j requires 0 <= j < |siblings| => Lower(siblings[j]));
    forall j | 0 <= j < |siblings|
      ensures IsRemoteCandidate(siblings[j]) <==> IsRemoteCandidate(lowered[j])
    {
      CandidateIgnoresCase(siblings[j]);
    }
    SelectionDependsOnlyOnCandidacy(siblings, lowered);
  }

  /** First match wins: entries listed after a found candidate never change the choice. */
  lemma SelectionStableUnderAppend(siblings: seq<string>, later: seq<string>)
    requires SelectSibling(siblings).Some?
    ensures SelectSibling(siblings + later) == SelectSibling(siblings)
  {
    var r, r' := SelectSibling(siblings), SelectSibling(siblings + later);
    assert (siblings + later)[r.value] == siblings[r.value];
  }
}

=== FILE: strings.dfy ===
/** The string primitives the panel relies on: `startsWith`, `endsWith`, and `split` followed by `pop`. */
module Strings {

  predicate StartsWith(s: string, prefix: string) {
    |prefix| <= |s| && s[..|prefix|] == prefix
  }

  predicate EndsWith(s: string, suffix: string) {
    |suffix| <= |s| && s[|s| - |suffix|..] == suffix
  }

  /** Two suffixes of the same string: the shorter is a suffix of the longer. */
  lemma EndsWithBoth(s: string, a: string, b: string)
    requires EndsWith(s, a) && EndsWith(s, b) && |b| <= |a|
    ensures EndsWith(a, b)
  {
    assert a[|a| - |b|..] == s[|s| - |b|..];
  }

  /** `parts.join(sep)` for a non-empty array of parts. */
  function Join(parts: seq<string>, sep: char): string
    requires |parts| >= 1
  {
    if |parts| == 1 then parts[0] else parts[0] + [sep] + Join(parts[1..], sep)
  }

  lemma JoinConsHead(parts: seq<string>, sep: char, c: char)
    requires |parts| >= 1
    ensures Join([[c] + parts[0]] + parts[1..], sep) == [c] + Join(parts, sep)
  {
    var q := [[c] + parts[0]] + parts[1..];
    if |parts| > 1 {
      assert q[1..] == parts[1..];
    }
  }

  /** `s.split(sep)` for a one-character separator: never empty, no part holds the separator,
      and joining the parts back gives `s`. */
  function Split(s: string, sep: char): (parts: seq<string>)
    ensures |parts| >= 1
    ensures forall i :: 0 <= i < |parts| ==> sep !in parts[i]
    ensures Join(parts, sep) == s
    decreases |s|
  {
    if |s| == 0 then [""]
    else
      var rest := Split(s[1..], sep);
      if s[0] == sep then
        assert ([""] + rest)[1..] == rest;
        assert s == [sep] + s[1..];
        [""] + rest
      else
        JoinConsHead(rest, sep, s[0]);
        assert s == [s[0]] + s[1..];
        [[s[0]] + rest[0]] + rest[1..]
  }

  /** A separator-free prefix followed by a separator becomes the first part. */
  lemma {:induction false} SplitAfterFirst(a: string, b: string, sep: char)
    requires sep !in a
    ensures Split(a + [sep] + b, sep) == [a] + Split(b, sep)
    decreases |a|
  {
    var s := a + [sep] + b;
    if |a| == 0 {
      assert s == [sep] + b;
      assert s[1..] == b;
    } else {
      assert s[0] == a[0];
      assert s[1..] == a[1..] + [sep] + b;
      assert sep !in a[1..];
      SplitAfterFirst(a[1..], b, sep);
      var rest := Split(s[1..], sep);
      assert rest[0] == a[1..];
      assert rest[1..] == Split(b, sep);
      assert [a[0]] + a[1..] == a;
    }
  }

  lemma {:induction false} SplitWithoutSeparator(s: string, sep: char)
    requires sep !in s
    ensures Split(s, sep) == [s]
    decreases |s|
  {
    if |s| > 0 {
      assert sep !in s[1..];
      SplitWithoutSeparator(s[1..], sep);
      assert s == [s[0]] + s[1..];
    }
  }

  /** The inverse direction of `Split`'s round trip: separator-free parts come back from their join. */
  lemma {:induction false} SplitJoin(parts: seq<string>, sep: char)
    requires |parts| >= 1
    requires forall i :: 0 <= i < |parts| ==> sep !in parts[i]
    ensures Split(Join(parts, sep), sep) == parts
    decreases |parts|
  {
    if |parts| == 1 {
      SplitWithoutSeparator(parts[0], sep);
    } else {
      SplitJoin(parts[1..], sep);
      SplitAfterFirst(parts[0], Join(parts[1..], sep), sep);
      assert [parts[0]] + parts[1..] == parts;
    }
  }

  lemma EndsWithAppend(x: string, y: string, suffix: string)
    requires EndsWith(y, suffix)
    ensures EndsWith(x + y, suffix)
  {
    assert (x + y)[|x + y| - |suffix|..] == y[|y| - |suffix|..];
  }

  /** A suffix of a suffix is a suffix. */
  lemma EndsWithDrop(s: string, x: string, y: string)
    requires EndsWith(s, x + y)
    ensures EndsWith(s, y)
  {
    assert s[|s| - |y|..] == s[|s| - |x + y|..][|x|..];
  }

  /** With several parts, the join ends with the separator followed by the last part. */
  lemma {:induction false} JoinEndsWithSepLast(parts: seq<string>, sep: char)
    requires |parts| >= 2
    ensures EndsWith(Join(parts, sep), [sep] + parts[|parts| - 1])
    decreases |parts|
  {
    var last, tail := parts[|parts| - 1], parts[1..];
    assert tail[|tail| - 1] == last;
    var jt := Join(tail, sep);
    assert Join(parts, sep) == (parts[0] + [sep]) + jt;
    if |tail| == 1 {
      assert (parts[0] + [sep]) + last == parts[0] + ([sep] + last);
      assert EndsWith([sep] + last, [sep] + last);
      EndsWithAppend(parts[0], [sep] + last, [sep] + last);
    } else {
      JoinEndsWithSepLast(tail, sep);
      EndsWithAppend(parts[0] + [sep], jt, [sep] + last);
    }
  }

  /** The join ends with the last part, and the separator precedes it when there are several parts. */
  lemma JoinEndsWithLast(parts: seq<string>, sep: char)
    requires |parts| >= 1
    ensures EndsWith(Join(parts, sep), parts[|parts| - 1])
    ensures |parts| >= 2 ==> EndsWith(Join(parts, sep), [sep] + parts[|parts| - 1])
  {
    if |parts| >= 2 {
      JoinEndsWithSepLast(parts, sep);
      EndsWithDrop(Join(parts, sep), [sep], parts[|parts| - 1]);
    }
  }

  /** `s.split(sep).pop()`: the text after the last separator, or all of `s` when there is none.
      It is the longest separator-free suffix of `s`. */
  function LastSegment(s: string, sep: char): (seg: string)
    ensures sep !in seg
    ensures EndsWith(s, seg)
    ensures |seg| < |s| ==> s[|s| - |seg| - 1] == sep
  {
    var parts := Split(s, sep);
    JoinEndsWithLast(parts, sep);
    var seg := parts[|parts| - 1];
    assert |parts| >= 2 ==> s[|s| - |seg| - 1..][0] == sep;
    seg
  }

  /** The separator-free suffix after a separator is exactly the last segment. */
  lemma LastSegmentAfter(s: string, sep: char, k: nat)
    requires k < |s| && s[|s| - k - 1] == sep && sep !in s[|s| - k..]
    ensures LastSegment(s, sep) == s[|s| - k..]
  {
  }
}
